=== FILE: README.md ===
# MoneyTracker rules, modelled in Dafny

MoneyTracker is an iOS app for tracking credit-card purchases. Users register
cards, record transactions against a card, tag the transactions with their own
categories, and filter a card's transaction list by category. Almost all of the
app is SwiftUI views wired to a Core Data store. This project lifts the few
deterministic rules inside those views into pure Dafny functions over an
in-memory store, and proves what the views promise about them.

Core Data object identity (`hash`) becomes an abstract `Id`. `Date()` and the
calendar's current year are parameters (`now`, `currentYear`). The store is a
value holding three sequences of records and an identity counter.

| file | module | models |
|---|---|---|
| `wrappers.dfy` | `Wrappers` | Swift optionals and `??` |
| `numeric_text.dfy` | `NumericText` | `Int32(text)`, `String(n)`, `%02d`, Swift's truncating `%` |
| `listing.dfy` | `Listing` | descending sort-descriptor fetches; `filter` |
| `records.dfy` | `Records` | the Card, CardTransaction and TransactionCategory entities |
| `persistence.dfy` | `Persistence` | the store: fetches, inserts, in-place update, deletes |
| `selection.dfy` | `Selection` | the tap-to-toggle rule and the filter sheet's save/dismiss |
| `transactions_list.dfy` | `TransactionsList` | `TransactionsListView.swift` |
| `categories_screen.dfy` | `CategoriesScreen` | `CategoriesListView.swift` |
| `card_form.dfy` | `CardForm` | `AddCardForm.swift` |
| `transaction_form.dfy` | `TransactionForm` | `AddTransactionForm.swift` |
| `main_view.dfy` | `MainView` | `MainView.swift` |
| `scenarios.dfy` | `Scenarios` | the main flows composed: add a card, tag a transaction, filter, delete the card |

Some behaviours of the app that are easy to miss; the model follows the code
in each case:
- The card type is whatever string the picker offered. It is not an enforced
  enumeration.
- The expiry label takes the year modulo 2000 and prints it without padding. So
  `3/2005` shows as `03/5` and `11/2100` as `11/100`. It reads as "MM/YY" only
  for years 2010 to 2099.
- Editing a card also renews its timestamp, which moves it to the front of the
  card listing.

## Model

| member | source | states |
|---|---|---|
| `NumericText.ParseInt` | MoneyTracker/Main/AddCardForm.swift:105 | the text is accepted exactly when it is an optional sign followed by one or more ASCII digits; the sign of the value follows the text |
| `NumericText.ParseIntValue` | MoneyTracker/Main/AddCardForm.swift:105 | a digit run without leading zeros reads as the number whose `String` it is; a leading `0` or `+` leaves the value unchanged and a leading `-` negates it, so every literal's value is fixed |
| `NumericText.CanonicalDigits` | MoneyTracker/Main/AddCardForm.swift:105 | digits without leading zeros are exactly the decimal rendering of their value |
| `NumericText.LeadingZeroDigits` | MoneyTracker/Main/AddCardForm.swift:105 | a leading zero does not change a digit run's value |
| `NumericText.ParseInt32` | MoneyTracker/Main/AddCardForm.swift:105 | `Int32(text)` yields a value exactly when the text is an integer literal whose value fits in 32 bits, and that value is the literal's |
| `NumericText.Int32OrZero` | MoneyTracker/Main/AddCardForm.swift:105 | `Int32(text) ?? 0` is always a 32-bit value: malformed text and literals that overflow 32 bits give 0, well-formed in-range text gives its value |
| `NumericText.IntToDecimal` | MoneyTracker/Main/AddCardForm.swift:25 | `String(n)` is non-empty, starts with `-` exactly for negative `n`, and is otherwise ASCII digits without a leading zero (only `0` itself starts with `0`) |
| `NumericText.DecimalRoundTrip` | MoneyTracker/Main/AddCardForm.swift:25 | `String(n)` parses back to `n` for every integer |
| `NumericText.Int32RoundTrip` | MoneyTracker/Main/AddCardForm.swift:105 | the limit text prefilled as `String(limit)` parses back through `Int32(text) ?? 0` to the same limit |
| `NumericText.PadTwo` | MoneyTracker/Main/MainView.swift:167 | `%02d` is at least two characters wide; for 0..99 it is exactly two ASCII digits, with a leading `0` only below ten |
| `NumericText.PadTwoRoundTrip` | MoneyTracker/Main/MainView.swift:167 | the `%02d` month text reads back as the month |
| `NumericText.SwiftRem` | MoneyTracker/Main/MainView.swift:167 | the remainder has the dividend's sign, is smaller than the divisor in magnitude and differs from the dividend by a multiple of the divisor, which together fix Swift's truncating remainder |
| `Listing.SortDesc` | MoneyTracker/Main/MainView.swift:18-21 | a descending-timestamp fetch returns a permutation of the records whose keys never increase |
| `Listing.Filter` | MoneyTracker/Main/Transactions/TransactionsListView.swift:90 | `filter` keeps exactly the elements satisfying the predicate |
| `Listing.FilterIsSubseq` | MoneyTracker/Main/Transactions/TransactionsListView.swift:90 | `filter` returns an order-preserving subsequence of its input |
| `Listing.FilterKeepsSorted` | MoneyTracker/Main/Transactions/TransactionsListView.swift:90 | filtering a newest-first list leaves it newest first |
| `Listing.FilterIdempotent` | MoneyTracker/Main/Transactions/TransactionsListView.swift:90 | filtering twice with one predicate equals filtering once |
| `Listing.StrictNewestFirst` | MoneyTracker/Main/MainView.swift:18-21 | a record whose timestamp is strictly the largest comes first in the descending listing |
| `Persistence.CardListing` | MoneyTracker/Main/MainView.swift:18-21 | the card listing holds exactly the stored cards, newest first |
| `Persistence.CategoryListing` | MoneyTracker/Main/Transactions/CategoriesListView.swift:17-19 | the category listing holds exactly the stored categories, newest first |
| `Persistence.TransactionsOf` | MoneyTracker/Main/Transactions/TransactionsListView.swift:19 | a card's list holds exactly the transactions whose card is that card, each once, newest first |
| `Persistence.InsertCard` | MoneyTracker/Main/AddCardForm.swift:99 | a new card gets an identity not used before; the other cards and entities are untouched; the store invariant is kept |
| `Persistence.ReplaceCard` | MoneyTracker/Main/AddCardForm.swift:99 | an edit overwrites the card with that identity in place; the set of identities and every other card stay as they were |
| `Persistence.RemoveCard` | MoneyTracker/Main/MainView.swift:105-111 | deleting a card removes only cards with that identity; transactions and categories are untouched |
| `Persistence.InsertTransaction` | MoneyTracker/Main/Transactions/AddTransactionForm.swift:156 | a new transaction gets a fresh identity; cards and categories are untouched |
| `Persistence.RemoveTransaction` | MoneyTracker/Main/Transactions/TransactionsListView.swift:187-192 | deleting a transaction removes only that identity |
| `Persistence.InsertCategory` | MoneyTracker/Main/Transactions/CategoriesListView.swift:79 | a new category gets a fresh identity; cards and transactions are untouched |
| `Persistence.RemoveCategories` | MoneyTracker/Main/Transactions/CategoriesListView.swift:55-57 | deleting a set of categories removes exactly those; transactions keep whatever category references they hold |
| `Selection.Toggle` | MoneyTracker/Main/Transactions/TransactionsListView.swift:142-146 | a tap flips the tapped category's membership and no other category's |
| `Selection.ToggleTwice` | MoneyTracker/Main/Transactions/CategoriesListView.swift:29-33 | tapping the same row twice restores the selection |
| `Selection.TapAllParity` | MoneyTracker/Main/Transactions/TransactionsListView.swift:142-146 | after any series of taps, a category is selected exactly when its initial membership differs from whether it was tapped an odd number of times |
| `Selection.RunFilterSheet` | MoneyTracker/Main/Transactions/TransactionsListView.swift:49-51 | dismissing the sheet keeps the active selection; saving replaces it with the edited copy |
| `TransactionsList.ShouldKeep` | MoneyTracker/Main/Transactions/TransactionsListView.swift:91-99 | the flag loop over a transaction's categories returns true exactly when one of them is selected |
| `TransactionsList.FilterTransactions` | MoneyTracker/Main/Transactions/TransactionsListView.swift:86-101 | the filter loop computes the reference filter: everything for an empty selection, otherwise the matching transactions in order |
| `TransactionsList.FilterEmptySelection` | MoneyTracker/Main/Transactions/TransactionsListView.swift:87-89 | with nothing selected the fetched list is returned unchanged |
| `TransactionsList.FilterKeepsExactlyMatches` | MoneyTracker/Main/Transactions/TransactionsListView.swift:90-100 | with a non-empty selection, a transaction is kept exactly when one of its categories is selected |
| `TransactionsList.FilterDropsUncategorised` | MoneyTracker/Main/Transactions/TransactionsListView.swift:91-99 | a transaction with an unset or empty category set is dropped whenever something is selected |
| `TransactionsList.FilterIsSubsequence` | MoneyTracker/Main/Transactions/TransactionsListView.swift:90 | the filter's result is an order-preserving subsequence of its input |
| `TransactionsList.FilterKeepsNewestFirst` | MoneyTracker/Main/Transactions/TransactionsListView.swift:19 | the filtered list of a newest-first fetch is still newest first |
| `TransactionsList.FilterIdempotent` | MoneyTracker/Main/Transactions/TransactionsListView.swift:86-101 | filtering an already filtered list with the same selection changes nothing |
| `TransactionsList.ShownTransactions` | MoneyTracker/Main/Transactions/TransactionsListView.swift:57 | the rows shown are an order-preserving part of the viewed card's list, newest first; with no selection they are the whole list, otherwise exactly the card's transactions with a selected category |
| `TransactionsList.DeleteTransaction` | MoneyTracker/Main/Transactions/TransactionsListView.swift:187-198 | the deleted transaction's identity leaves the store and every card's list; every other transaction stays and none is added; cards and categories are untouched |
| `CardForm.MonthOptions` | MoneyTracker/Main/AddCardForm.swift:73 | the month picker offers exactly 1 to 12, ascending |
| `CardForm.YearOptions` | MoneyTracker/Main/AddCardForm.swift:79 | the year picker offers exactly the twenty years from the current one, ascending |
| `CardForm.OpenCardForm` | MoneyTracker/Main/AddCardForm.swift:19-29 | a new card's buffer holds the defaults (no name or number, Visa, month 1, the current year, blue); an edited card's buffer holds its fields, with the limit written as `String(limit)`, which reads back as the limit |
| `CardForm.NewCardDefaultsOffered` | MoneyTracker/Main/AddCardForm.swift:40-47 | the default type, month and year are among the pickers' options |
| `CardForm.SaveCard` | MoneyTracker/Main/AddCardForm.swift:99-110 | saving an edit keeps the card's identity and the identity set; saving a new card adds exactly one fresh identity; the buffer's fields are stored with limit parse-or-0 and timestamp `now`; no other card changes |
| `CardForm.SubmitCardForm` | MoneyTracker/Main/AddCardForm.swift:95-133 | cancel changes nothing; save stores the buffer's fields with limit parse-or-0 and timestamp `now`, keeps the identity on edit or adds one fresh identity on create, keeps every other card, and touches no transaction or category |
| `CardForm.SavedCardListedFirst` | MoneyTracker/Main/AddCardForm.swift:108 | with a forward-moving clock, every save, an edit included, puts the saved card first in the card listing |
| `CardForm.EditWithoutChangesKeepsCard` | MoneyTracker/Main/AddCardForm.swift:99-110 | opening a card and saving it untouched stores the same card with only the timestamp renewed and an undecodable colour defaulted |
| `CardForm.BlankFormSavesDefaults` | MoneyTracker/Main/AddCardForm.swift:105 | an untouched new-card form stores limit 0, month 1, the current year and type Visa |
| `TransactionForm.OpenTransactionForm` | MoneyTracker/Main/Transactions/AddTransactionForm.swift:19-26 | the initial selection is empty exactly when there are no categories, and otherwise is the singleton of a newest category |
| `TransactionForm.SelectedForDisplay` | MoneyTracker/Main/Transactions/AddTransactionForm.swift:60 | the selected categories of the store are listed, each once, newest first |
| `TransactionForm.SaveTransaction` | MoneyTracker/Main/Transactions/AddTransactionForm.swift:156-162 | exactly one new transaction, on the form's card, with the selection as its categories and the name, date and photo copied; an unparseable amount becomes 0 |
| `TransactionForm.SubmitTransactionForm` | MoneyTracker/Main/Transactions/AddTransactionForm.swift:145-173 | cancel leaves the store unchanged; save adds exactly one transaction with a fresh identity on the form's card, holding the buffer's name, date, photo and category selection and the parsed amount or 0, keeps every other transaction, and touches no card or category |
| `TransactionForm.SavedTransactionListed` | MoneyTracker/Main/Transactions/AddTransactionForm.swift:161 | a saved transaction appears in its card's list |
| `TransactionForm.CreatedCategoryPreselected` | MoneyTracker/Main/Transactions/AddTransactionForm.swift:19-26 | a category just created is the one the next transaction form preselects |
| `CategoriesScreen.TapRow` | MoneyTracker/Main/Transactions/CategoriesListView.swift:29-33 | a tap inserts an absent category and removes a present one, changing no other membership |
| `CategoriesScreen.DeleteRows` | MoneyTracker/Main/Transactions/CategoriesListView.swift:51-58 | each deleted row's category leaves both the store and the selection; every other category and its selection status are unchanged |
| `CategoriesScreen.HandleCreate` | MoneyTracker/Main/Transactions/CategoriesListView.swift:77-85 | exactly one new category with the entered name and colour, stamped `now`; the name field is cleared and the selection kept |
| `MainView.InitialSelection` | MoneyTracker/Main/MainView.swift:42 | the selection on appear is the first listed card's identity, or -1 exactly when there are no cards |
| `MainView.FirstIndexOf` | MoneyTracker/Main/MainView.swift:45 | the result is the first position whose card has the selected identity, or none when no card has it |
| `MainView.ShownCard` | MoneyTracker/Main/MainView.swift:45-48 | the shown card is a stored card with the selected identity; nothing is shown exactly when no card has it |
| `MainView.AppearShowsNewestCard` | MoneyTracker/Main/MainView.swift:41-43 | on appear the newest card's transactions are the ones shown |
| `MainView.NoSelectionShowsNothing` | MoneyTracker/Main/MainView.swift:24 | the initial -1 selection shows no card |
| `MainView.AddCardFromMain` | MoneyTracker/Main/MainView.swift:57-59 | after adding a card the selection is the new card, which is shown; cancel changes nothing |
| `MainView.DeleteCard` | MoneyTracker/Main/MainView.swift:105-111 | the card is gone and can no longer be shown; its transactions remain; other cards' lists are unchanged |
| `MainView.ExpiryLabel` | MoneyTracker/Main/MainView.swift:167 | the label is at least four characters; for a month in 0..99 it is two month digits that read back as the month, then a slash at index 2, then text that reads back as the year's truncating remainder by 2000; for a year from 0 on that text is digits without zero padding |
| `MainView.ExpiryLabelReadsBack` | MoneyTracker/Main/MainView.swift:167 | for a real month and a year from 0 on, the label is two digits reading back as the month, a slash, then unpadded digits reading back as the year modulo 2000 |
| `MainView.ExpiryLabelExamples` | MoneyTracker/Main/MainView.swift:167 | 3/2030 gives `03/30`, 3/2005 gives `03/5`, 11/2100 gives `11/100` |
| `Scenarios.AddFirstCard` | MoneyTracker/Main/AddCardForm.swift:99-110 | a card saved from a filled-in form on an empty store is the only card listed, with limit 5000 read from the text "5000" |
| `Scenarios.CategorisedTransaction` | MoneyTracker/Main/Transactions/TransactionsListView.swift:86-101 | after creating "Groceries" and saving a 42.50 transaction tagged with it, the card lists exactly that transaction; filtering by Groceries keeps it and filtering by any other category leaves nothing |
| `Scenarios.DeleteCardOrphansTransactions` | MoneyTracker/Main/MainView.swift:105-111 | deleting a card leaves its transactions in the store but unreachable: the card is not listed or shown, and no remaining card lists them |

## Left out

- Core Data contexts, save and delete failures and their error printing. The store is an in-memory value and every save succeeds.
- SwiftUI layout, navigation, sheets, action sheets and the empty-state prompts. These are presentation only.
- The `UIColor` archive codec in `AddCardForm.swift`, which wraps `NSKeyedArchiver`. Colours are stored as opaque `Color` values. A card colour that would not decode is `None`.
- Image resizing, cropping and JPEG compression, and the photo picker coordinator. The photo is an opaque optional blob that is copied as is.
- Float amounts. The purchase total on each card, the `%.2f ₽` text and `Float(text)` are floating point. `Float(text)` is a parameter, `parseAmount`, and only its parse-or-0 use is modelled.
- Locale-specific date formatting. `MoneyTrackerApp.swift` is only app entry wiring and is not part of this model.
- Timestamps that are `nil`. Every creation path sets a timestamp, so timestamps are never optional here. The `?? Date()` comparator for category chips is not modelled, and neither is the chip ordering in `CardTransactionView`.
- The order of records with equal timestamps. Core Data leaves it unspecified, so the model proves only that listings are sorted permutations.
- `Int16` conversion of the expiry month and year. Both pickers only offer values that fit.
- The month and year pickers' option tags. `AddCardForm.swift:72-82` tags each option with `String(num)` while the bound selections `month` and `year` are `Int`. SwiftUI matches tags by type, so these pickers probably never change the month or year, and a new card would keep month 1 and the current year. This reading is unconfirmed. The model treats `CardBuffer.month` and `CardBuffer.year` as whatever the user picked.
- The relationship delete rules in the data model file, which is not part of this model. Deleted cards and categories leave their identities in transactions, and those transactions remain.
- `CardForm.OpenCardForm`: does not state what happens to the colour when the stored one does not decode (the buffer falls back to blue). `EditWithoutChangesKeepsCard` states it.

=== FILE: card_form.dfy ===
/**
  The add/edit card form: its edit buffer, the options its pickers offer,
  and what its save and cancel buttons do to the store.
*/
module CardForm {
  import opened Wrappers
  import opened Records
  import opened Listing
  import opened Persistence
  import opened NumericText

  /** The card type picker's choices. */
  const CardTypes: seq<string> := ["Visa", "Mastercard", "Mir"]

  /** The expiry month picker's choices, `1..<13`. */
  function MonthOptions(): (r: seq<int>)
    ensures forall m :: m in r <==> 1 <= m <= 12
    ensures forall i :: 0 <= i < |r| - 1 ==> r[i] < r[i + 1]
  {
    var r := seq(12, i => i + 1);
    forall m | 1 <= m <= 12
      ensures m in r
    {
      assert r[m - 1] == m;
    }
    r
  }

  /** The expiry year picker's choices, `currentYear..<currentYear + 20`. */
  function YearOptions(currentYear: int): (r: seq<int>)
    ensures |r| == 20
    ensures forall y :: y in r <==> currentYear <= y < currentYear + 20
    ensures forall i :: 0 <= i < |r| - 1 ==> r[i] < r[i + 1]
  {
    var r := seq(20, i => currentYear + i);
    forall y | currentYear <= y < currentYear + 20
      ensures y in r
    {
      assert r[y - currentYear] == y;
    }
    r
  }

  /** The form's editable state; `limitText` is the text field's content. */
  datatype CardBuffer = CardBuffer(
    name: string,
    number: string,
    cardType: string,
    limitText: string,
    month: int,
    year: int,
    color: Color)

  /** The buffer a form opens with: a blank card of type Visa expiring in
      January of the current year, or the fields of the card being edited
      (its colour only when the stored one decodes). */
  function OpenCardForm(card: Option<Card>, currentYear: int): (b: CardBuffer)
    ensures card.None? ==> b == CardBuffer("", "", "Visa", "", 1, currentYear, SystemBlue)
    ensures card.Some? ==>
      && b.name == card.value.name && b.number == card.value.number
      && b.cardType == card.value.cardType
      && b.limitText == IntToDecimal(card.value.limit) && ParseInt(b.limitText) == Some(card.value.limit)
      && b.month == card.value.expMonth && b.year == card.value.expYear
      && (card.value.color.Some? ==> b.color == card.value.color.value)
  {
    match card
    case None => CardBuffer("", "", "Visa", "", 1, currentYear, SystemBlue)
    case Some(c) =>
      DecimalRoundTrip(c.limit);
      CardBuffer(c.name, c.number, c.cardType, IntToDecimal(c.limit), c.expMonth, c.expYear,
                 c.color.GetOr(SystemBlue))
  }

  /** Every default of a new card's buffer is one of the pickers' offers. */
  lemma NewCardDefaultsOffered(currentYear: int)
    ensures OpenCardForm(None, currentYear).cardType in CardTypes
    ensures OpenCardForm(None, currentYear).month in MonthOptions()
    ensures OpenCardForm(None, currentYear).year in YearOptions(currentYear)
  {
  }

  /** The save button: the edited card is written over in place, otherwise
      a new card is created; either way the buffer's fields are stored,
      unparseable limit text becomes 0 and the timestamp becomes `now`. */
  function SaveCard(s: Store, editing: Option<Id>, b: CardBuffer, now: Time): (r: (Store, Card))
    requires Valid(s)
    requires editing.Some? ==> editing.value in CardIds(s)
    ensures Valid(r.0) && r.1 in r.0.cards
    ensures && r.1.name == b.name && r.1.number == b.number && r.1.cardType == b.cardType
            && r.1.expMonth == b.month && r.1.expYear == b.year && r.1.color == Some(b.color)
    ensures r.1.limit == (if ParseInt32(b.limitText).Some? then ParseInt(b.limitText).value else 0)
    ensures r.1.timestamp == now
    ensures editing.Some? ==> r.1.id == editing.value && CardIds(r.0) == CardIds(s)
    ensures editing.None? ==> r.1.id !in CardIds(s) && CardIds(r.0) == CardIds(s) + {r.1.id}
    ensures forall c :: c in s.cards && c.id != r.1.id ==> c in r.0.cards
    ensures forall c :: c in r.0.cards && c != r.1 ==> c in s.cards && c.id != r.1.id
    ensures r.0.transactions == s.transactions && r.0.categories == s.categories
  {
    var id := if editing.Some? then editing.value else s.nextId;
    var card := Card(id, b.name, b.number, b.cardType, Int32OrZero(b.limitText),
                     b.month, b.year, now, Some(b.color));
    if editing.Some? then (ReplaceCard(s, card), card)
    else
      assert forall c :: c in s.cards ==> c.id != id;
      (InsertCard(s, card), card)
  }

  /** Leaving the form: save as above, or cancel, which changes nothing. */
  function SubmitCardForm(s: Store, editing: Option<Id>, b: CardBuffer, action: FormAction, now: Time)
    : (r: (Store, Option<Card>))
    requires Valid(s)
    requires editing.Some? ==> editing.value in CardIds(s)
    ensures Valid(r.0)
    ensures action == Cancel ==> r == (s, None)
    ensures action == Save ==> r.1.Some? && r.1.value in r.0.cards && r.1.value.timestamp == now
    ensures action == Save ==>
      && r.1.value.name == b.name && r.1.value.number == b.number && r.1.value.cardType == b.cardType
      && r.1.value.expMonth == b.month && r.1.value.expYear == b.year && r.1.value.color == Some(b.color)
      && r.1.value.limit == Int32OrZero(b.limitText)
    ensures action == Save && editing.Some? ==> r.1.value.id == editing.value && CardIds(r.0) == CardIds(s)
    ensures action == Save && editing.None? ==>
      r.1.value.id !in CardIds(s) && CardIds(r.0) == CardIds(s) + {r.1.value.id}
    ensures action == Save ==>
      && (forall c :: c in s.cards && c.id != r.1.value.id ==> c in r.0.cards)
      && (forall c :: c in r.0.cards && c != r.1.value ==> c in s.cards && c.id != r.1.value.id)
    ensures r.0.transactions == s.transactions && r.0.categories == s.categories
  {
    if action == Cancel then (s, None)
    else
      var (s', card) := SaveCard(s, editing, b, now);
      (s', Some(card))
  }

  /** With a clock that moves forward, every save (an edit included) puts
      the saved card first in the newest-first card listing. */
  lemma SavedCardListedFirst(s: Store, editing: Option<Id>, b: CardBuffer, now: Time)
    requires Valid(s)
    requires editing.Some? ==> editing.value in CardIds(s)
    requires forall c :: c in s.cards ==> c.timestamp < now
    ensures |CardListing(SaveCard(s, editing, b, now).0)| > 0
    ensures CardListing(SaveCard(s, editing, b, now).0)[0] == SaveCard(s, editing, b, now).1
  {
    var (s', card) := SaveCard(s, editing, b, now);
    StrictNewestFirst(s'.cards, CardTime, card);
  }

  /** Opening a card for editing and saving without touching anything
      stores the same card again, with only its timestamp renewed (and a
      colour that did not decode replaced by the default blue). */
  lemma EditWithoutChangesKeepsCard(s: Store, c: Card, currentYear: int, now: Time)
    requires Valid(s) && c in s.cards
    ensures SaveCard(s, Some(c.id), OpenCardForm(Some(c), currentYear), now).1
      == c.(timestamp := now, color := Some(c.color.GetOr(SystemBlue)))
  {
    Int32RoundTrip(c.limit);
  }

  /** A new card saved from an untouched form has limit 0, the first
      month and the current year. */
  lemma BlankFormSavesDefaults(s: Store, currentYear: int, now: Time)
    requires Valid(s)
    ensures var card := SaveCard(s, None, OpenCardForm(None, currentYear), now).1;
      card.limit == 0 && card.expMonth == 1 && card.expYear == currentYear
      && card.cardType == "Visa" && card.name == "" && card.number == ""
  {
  }
}

=== FILE: categories_screen.dfy ===
/**
  The category picker: tapping rows to edit the selection it shares with
  the transaction form, swiping rows away, and creating a category.
*/
module CategoriesScreen {
  import opened Records
  import opened Persistence
  import opened Selection

  /** The screen's own state (the new-category name and colour fields) and
      the selection bound to the transaction form. */
  datatype Screen = Screen(name: string, color: Color, selection: set<Id>)

  /** Tapping a row toggles that category's membership and nothing else. */
  function TapRow(sc: Screen, c: Category): (r: Screen)
    ensures c.id in r.selection <==> c.id !in sc.selection
    ensures forall d :: d != c.id ==> (d in r.selection <==> d in sc.selection)
    ensures r.name == sc.name && r.color == sc.color
  {
    sc.(selection := Toggle(sc.selection, c.id))
  }

  /** The identities of the listed categories at the given row positions. */
  function RowIds(listing: seq<Category>, rows: set<nat>): set<Id>
    requires forall i :: i in rows ==> i < |listing|
  {
    set i | i in rows :: listing[i].id
  }

  /** Swipe-to-delete of the rows at `rows` of the newest-first listing: each
      row's category is dropped from the selection and marked deleted, and
      the marked deletions are then saved together. */
  method DeleteRows(s: Store, sc: Screen, rows: set<nat>) returns (s': Store, sc': Screen)
    requires Valid(s)
    requires forall i :: i in rows ==> i < |CategoryListing(s)|
    ensures Valid(s')
    ensures forall i :: i in rows ==>
      CategoryListing(s)[i] !in s'.categories && CategoryListing(s)[i].id !in sc'.selection
    ensures forall c :: c in s'.categories <==> c in s.categories && c.id !in RowIds(CategoryListing(s), rows)
    ensures forall d :: d !in RowIds(CategoryListing(s), rows) ==> (d in sc'.selection <==> d in sc.selection)
    ensures s'.cards == s.cards && s'.transactions == s.transactions
    ensures sc'.name == sc.name && sc'.color == sc.color
  {
    var listing := CategoryListing(s);
    var remaining := rows;
    var marked: set<Id> := {};
    sc' := sc;
    while remaining != {}
      invariant remaining <= rows
      invariant marked == RowIds(listing, rows - remaining)
      invariant sc' == sc.(selection := sc.selection - marked)
      decreases remaining
    {
      var i :| i in remaining;
      var category := listing[i];
      sc' := sc'.(selection := sc'.selection - {category.id});
      marked := marked + {category.id};
      remaining := remaining - {i};
    }
    assert rows - remaining == rows;
    s' := RemoveCategories(s, marked);
    forall i | i in rows
      ensures listing[i] !in s'.categories
    {
      assert listing[i].id in marked;
    }
  }

  /** The create button: one new category with the entered name and colour,
      stamped `now`; the name field is cleared and the selection kept. */
  function HandleCreate(s: Store, sc: Screen, now: Time): (r: (Store, Screen))
    requires Valid(s)
    ensures Valid(r.0)
    ensures exists c :: (c !in s.categories && c.id !in CategoryIds(s)
      && c.name == sc.name && c.color == sc.color && c.timestamp == now
      && (forall d :: d in r.0.categories <==> d in s.categories || d == c))
    ensures |CategoryIds(r.0)| == |CategoryIds(s)| + 1
    ensures r.0.cards == s.cards && r.0.transactions == s.transactions
    ensures r.1 == sc.(name := "")
  {
    var c := Category(s.nextId, sc.name, sc.color, now);
    (InsertCategory(s, c), sc.(name := ""))
  }
}

=== FILE: listing.dfy ===
/**
  Generic ordered retrieval: the "sorted by timestamp, descending" fetches
  and Swift's order-preserving `filter`, over sequences of records.
*/
module Listing {

  /** Keys never increase along `s` (newest first, when the key is a
      timestamp). */
  ghost predicate SortedDesc<T>(s: seq<T>, key: T -> int) {
    forall i, j :: 0 <= i < j < |s| ==> key(s[i]) >= key(s[j])
  }

  /** `r` is `s` with some elements left out and the rest in their order. */
  ghost predicate IsSubseq<T>(r: seq<T>, s: seq<T>)
    decreases |s|
  {
    if |r| == 0 then true
    else if |s| == 0 then false
    else if r[0] == s[0] then IsSubseq(r[1..], s[1..])
    else IsSubseq(r, s[1..])
  }

  /** Places `x` in front of the first element whose key is not larger. */
  function Insert<T>(x: T, s: seq<T>, key: T -> int): (r: seq<T>)
    requires SortedDesc(s, key)
    ensures SortedDesc(r, key)
    ensures multiset(r) == multiset(s) + multiset{x}
    decreases |s|
  {
    if |s| == 0 || key(x) >= key(s[0]) then
      PrependSorted(x, s, key);
      [x] + s
    else
      var rest := Insert(x, s[1..], key);
      forall k | 0 <= k < |rest|
        ensures key(s[0]) >= key(rest[k])
      {
        assert rest[k] in multiset(s[1..]) + multiset{x};
        if rest[k] != x {
          var i :| 0 <= i < |s[1..]| && s[1..][i] == rest[k];
          assert s[i + 1] == rest[k];
        }
      }
      PrependSorted(s[0], rest, key);
      assert s == [s[0]] + s[1..];
      [s[0]] + rest
  }

  /** A head no smaller than anything after it extends a sorted list. */
  lemma PrependSorted<T>(h: T, s: seq<T>, key: T -> int)
    requires SortedDesc(s, key)
    requires forall k :: 0 <= k < |s| ==> key(h) >= key(s[k])
    ensures SortedDesc([h] + s, key)
  {
    var r := [h] + s;
    forall i, j | 0 <= i < j < |r|
      ensures key(r[i]) >= key(r[j])
    {
      assert r[j] == s[j - 1];
      if i > 0 {
        assert r[i] == s[i - 1];
      }
    }
  }

  /** A fetch with a single descending sort descriptor on `key`. Ties come
      out in some order; the fetch promises nothing about it either. */
  function SortDesc<T>(s: seq<T>, key: T -> int): (r: seq<T>)
    ensures SortedDesc(r, key)
    ensures multiset(r) == multiset(s)
  {
    if |s| == 0 then []
    else
      assert s == [s[0]] + s[1..];
      Insert(s[0], SortDesc(s[1..], key), key)
  }

  /** Swift's `filter`: the elements satisfying `p`, in their order. */
  function Filter<T>(s: seq<T>, p: T -> bool): (r: seq<T>)
    ensures forall i :: 0 <= i < |r| ==> r[i] in s && p(r[i])
    ensures forall i :: 0 <= i < |s| && p(s[i]) ==> s[i] in r
    ensures |r| <= |s|
  {
    if |s| == 0 then []
    else (if p(s[0]) then [s[0]] else []) + Filter(s[1..], p)
  }

  /** Filtering one more element at the end extends the result at its end;
      this is how a left-to-right loop builds `Filter`. */
  lemma {:induction false} FilterSnoc<T>(s: seq<T>, x: T, p: T -> bool)
    ensures Filter(s + [x], p) == Filter(s, p) + (if p(x) then [x] else [])
    decreases |s|
  {
    if |s| > 0 {
      assert (s + [x])[1..] == s[1..] + [x];
      FilterSnoc(s[1..], x, p);
    }
  }

  /** The filter keeps the relative order of what it keeps. */
  lemma {:induction false} FilterIsSubseq<T>(s: seq<T>, p: T -> bool)
    ensures IsSubseq(Filter(s, p), s)
    decreases |s|
  {
    if |s| > 0 {
      FilterIsSubseq(s[1..], p);
      var w := Filter(s, p);
      if p(s[0]) {
        assert w == [s[0]] + Filter(s[1..], p);
        assert w[1..] == Filter(s[1..], p);
      } else {
        assert w == Filter(s[1..], p);
        if |w| > 0 {
          // the head of `w` satisfies `p`, so it is not the rejected `s[0]`
          assert p(w[0]) && w[0] != s[0];
        }
      }
    }
  }

  /** Filtering a newest-first list leaves it newest first. */
  lemma {:induction false} FilterKeepsSorted<T>(s: seq<T>, p: T -> bool, key: T -> int)
    requires SortedDesc(s, key)
    ensures SortedDesc(Filter(s, p), key)
    decreases |s|
  {
    if |s| > 0 {
      var rest := Filter(s[1..], p);
      FilterKeepsSorted(s[1..], p, key);
      if p(s[0]) {
        forall k | 0 <= k < |rest|
          ensures key(s[0]) >= key(rest[k])
        {
          var i :| 0 <= i < |s[1..]| && s[1..][i] == rest[k];
          assert s[i + 1] == rest[k];
        }
        PrependSorted(s[0], rest, key);
        assert Filter(s, p) == [s[0]] + rest;
      } else {
        assert Filter(s, p) == rest;
      }
    }
  }

  /** Filtering twice with the same predicate is filtering once. */
  lemma {:induction false} FilterIdempotent<T>(s: seq<T>, p: T -> bool)
    ensures Filter(Filter(s, p), p) == Filter(s, p)
    decreases |s|
  {
    if |s| > 0 {
      FilterIdempotent(s[1..], p);
      var w := Filter(s, p);
      if p(s[0]) {
        assert w == [s[0]] + Filter(s[1..], p);
        assert w[1..] == Filter(s[1..], p);
        assert Filter(w, p) == [w[0]] + Filter(w[1..], p);
      } else {
        assert w == Filter(s[1..], p);
      }
    }
  }

  /** In a sorted list the head has the largest key of all. */
  lemma HeadIsLargest<T>(r: seq<T>, key: T -> int, x: T)
    requires SortedDesc(r, key) && x in r
    ensures key(r[0]) >= key(x)
  {
    var k :| 0 <= k < |r| && r[k] == x;
  }

  /** When one element's key is strictly larger than every other element's,
      any sorted arrangement starts with it: the record saved "now" heads
      the newest-first listing. */
  lemma StrictNewestFirst<T>(s: seq<T>, key: T -> int, x: T)
    requires x in s
    requires forall y :: y in s && y != x ==> key(y) < key(x)
    ensures |SortDesc(s, key)| > 0 && SortDesc(s, key)[0] == x
  {
    var r := SortDesc(s, key);
    assert x in multiset(r);
    assert r[0] in multiset(s);
    if r[0] != x {
      HeadIsLargest(r, key, x);
    }
  }
}

=== FILE: main_view.dfy ===
/**
  The card carousel: the newest-first card listing, which card is selected
  and whose transactions are shown, adding and deleting cards, and the
  expiry label printed on each card.
*/
module MainView {
  import opened Wrappers
  import opened Records
  import opened Persistence
  import opened NumericText
  import opened CardForm

  /** The "no card" selection; no card identity is negative. */
  const NoCard: int := -1

  /** On appear the selection is the first listed card, or `NoCard`. */
  function InitialSelection(listing: seq<Card>): (sel: int)
    ensures sel == NoCard <==> |listing| == 0
    ensures |listing| > 0 ==> sel == listing[0].id
  {
    if |listing| > 0 then listing[0].id else NoCard
  }

  /** `firstIndex(where: { $0.id == sel })` over the listing. */
  function FirstIndexOf(listing: seq<Card>, sel: int): (r: Option<nat>)
    ensures r.Some? ==> r.value < |listing| && listing[r.value].id == sel
    ensures r.Some? ==> forall k :: 0 <= k < r.value ==> listing[k].id != sel
    ensures r.None? ==> forall k :: 0 <= k < |listing| ==> listing[k].id != sel
  {
    if |listing| == 0 then None
    else if listing[0].id == sel then Some(0)
    else
      match FirstIndexOf(listing[1..], sel)
      case Some(k) => Some(k + 1)
      case None => None
  }

  /** The card whose transactions are shown under the carousel, if any. */
  function ShownCard(s: Store, sel: int): (r: Option<Card>)
    ensures r.Some? ==> r.value in s.cards && r.value.id == sel
    ensures r.None? <==> forall c :: c in s.cards ==> c.id != sel
  {
    var listing := CardListing(s);
    match FirstIndexOf(listing, sel)
    case Some(i) => Some(listing[i])
    case None =>
      assert forall c :: c in s.cards ==> c.id != sel by {
        forall c | c in s.cards ensures c.id != sel {
          var k :| 0 <= k < |listing| && listing[k] == c;
        }
      }
      None
  }

  /** When the carousel appears, the newest card is the one shown. */
  lemma AppearShowsNewestCard(s: Store)
    requires |s.cards| > 0
    ensures ShownCard(s, InitialSelection(CardListing(s))) == Some(CardListing(s)[0])
  {
  }

  /** With no selection nothing is shown. */
  lemma NoSelectionShowsNothing(s: Store)
    ensures ShownCard(s, NoCard) == None
  {
  }

  /** Adding a card from the carousel: on save the selection moves to the
      new card, which is then the one shown; on cancel nothing changes. */
  function AddCardFromMain(s: Store, sel: int, b: CardBuffer, action: FormAction, now: Time)
    : (r: (Store, int))
    requires Valid(s)
    ensures Valid(r.0)
    ensures action == Cancel ==> r == (s, sel)
    ensures action == Save ==>
      && ShownCard(r.0, r.1).Some?
      && ShownCard(r.0, r.1).value.id !in CardIds(s)
      && ShownCard(r.0, r.1).value.name == b.name
      && CardIds(r.0) == CardIds(s) + {ShownCard(r.0, r.1).value.id}
  {
    match SubmitCardForm(s, None, b, action, now)
    case (s', None) => (s', sel)
    case (s', Some(card)) =>
      var saved := SaveCard(s, None, b, now);
      assert saved == (s', card);
      var shown := ShownCard(s', card.id);
      assert shown.Some? by {
        assert card in s'.cards;
      }
      assert shown.value == card by {
        assert forall c :: c in s'.cards && c != card ==> c.id != card.id;
      }
      (s', card.id)
  }

  /** Deleting a card from its action sheet: the card is gone and can no
      longer be shown; its transactions are not deleted. */
  function DeleteCard(s: Store, card: Card): (r: Store)
    requires Valid(s)
    ensures Valid(r)
    ensures forall c :: c in r.cards <==> c in s.cards && c.id != card.id
    ensures ShownCard(r, card.id) == None
    ensures r.transactions == s.transactions
    ensures forall other :: other != card.id ==> TransactionsOf(r, other) == TransactionsOf(s, other)
  {
    RemoveCard(s, card.id)
  }

  /** The expiry label: the month as `%02d`, a slash, then `String` of
      the year modulo 2000 (Swift's truncating `%`, without padding). */
  function ExpiryLabel(month: int, year: int): (text: string)
    ensures |text| >= 4
    ensures 0 <= month < 100 ==>
      && text[2] == '/'
      && ParseInt(text[..2]) == Some(month)
      && ParseInt(text[3..]) == Some(SwiftRem(year, 2000))
    ensures 0 <= month < 100 ==> AllDigits(text[..2])
    ensures 0 <= month < 100 && year >= 0 ==>
      AllDigits(text[3..]) && (text[3] == '0' ==> |text| == 4)
  {
    var yy := SwiftRem(year, 2000);
    var text := PadTwo(month) + "/" + IntToDecimal(yy);
    DecimalRoundTrip(yy);
    assert 0 <= month < 100 ==> ParseInt(text[..2]) == Some(month) && ParseInt(text[3..]) == Some(yy) by {
      if 0 <= month < 100 {
        assert text[..2] == PadTwo(month);
        assert text[3..] == IntToDecimal(yy);
        PadTwoRoundTrip(month);
      }
    }
    text
  }

  /** For a real month and a year from 0 on, the label is two month
      digits, a slash, and unpadded digits that read back as the year
      modulo 2000. */
  lemma ExpiryLabelReadsBack(month: int, year: int)
    requires 1 <= month <= 12 && year >= 0
    ensures var text := ExpiryLabel(month, year);
      |text| >= 4 && text[2] == '/'
      && ParseInt(text[..2]) == Some(month)
      && ParseInt(text[3..]) == Some(year % 2000)
      && AllDigits(text[..2]) && AllDigits(text[3..])
      && (text[3] == '0' ==> |text| == 4)
  {
  }

  /** Two worked examples: the year part is only two digits for years
      2010 to 2099. */
  lemma ExpiryLabelExamples()
    ensures ExpiryLabel(3, 2030) == "03/30"
    ensures ExpiryLabel(3, 2005) == "03/5"
    ensures ExpiryLabel(11, 2100) == "11/100"
  {
    assert NatToDecimal(30) == NatToDecimal(3) + [DigitChar(0)];
    assert NatToDecimal(100) == NatToDecimal(10) + [DigitChar(0)];
    assert NatToDecimal(10) == NatToDecimal(1) + [DigitChar(0)];
    assert NatToDecimal(11) == NatToDecimal(1) + [DigitChar(1)];
  }
}

=== FILE: numeric_text.dfy ===
/**
  The integer/text conversions the forms and the card view rely on, with
  Swift's semantics written out:
  - `Int32(text)`: optional `+`/`-`, then one or more ASCII digits, nothing
    else, and the value must fit in 32 bits; otherwise `nil`;
  - `String(n)`: decimal digits, a leading `-` for negatives;
  - `String(format: "%02d", n)`: zero-padded to width two;
  - `a % b`: truncating remainder (the sign follows the dividend).
*/
module NumericText {
  import opened Wrappers

  const Int32Min: int := -0x8000_0000
  const Int32Max: int := 0x7FFF_FFFF

  predicate InInt32(n: int) {
    Int32Min <= n <= Int32Max
  }

  predicate IsDigit(ch: char) {
    '0' <= ch <= '9'
  }

  predicate AllDigits(s: string) {
    forall i :: 0 <= i < |s| ==> IsDigit(s[i])
  }

  function DigitValue(ch: char): (d: nat)
    requires IsDigit(ch)
    ensures d < 10
  {
    ch as int - '0' as int
  }

  function DigitChar(d: nat): (ch: char)
    requires d < 10
    ensures IsDigit(ch) && DigitValue(ch) == d
  {
    ('0' as int + d) as char
  }

  /** The value of a run of decimal digits, most significant first. */
  function DigitsValue(s: string): nat
    requires AllDigits(s)
    decreases |s|
  {
    if |s| == 0 then 0 else DigitsValue(s[..|s| - 1]) * 10 + DigitValue(s[|s| - 1])
  }

  /** The decimal digits of `n`, without leading zeros. */
  function NatToDecimal(n: nat): (r: string)
    ensures |r| > 0 && AllDigits(r)
    ensures r[0] == '0' ==> n == 0
  {
    if n < 10 then [DigitChar(n)] else NatToDecimal(n / 10) + [DigitChar(n % 10)]
  }

  /** Swift's `String(n)` for an integer `n`. */
  function IntToDecimal(n: int): (r: string)
    ensures |r| > 0
    ensures n < 0 <==> r[0] == '-'
    ensures n >= 0 ==> AllDigits(r) && (r[0] == '0' ==> |r| == 1)
    ensures n < 0 ==> |r| > 1 && AllDigits(r[1..]) && r[1] != '0'
  {
    if n < 0 then "-" + NatToDecimal(-n) else NatToDecimal(n)
  }

  /** The grammar Swift's integer initialisers accept: a sign is optional,
      at least one digit is required, and nothing else may appear. */
  predicate IsIntegerLiteral(s: string) {
    if |s| > 0 && (s[0] == '+' || s[0] == '-') then |s| > 1 && AllDigits(s[1..])
    else |s| > 0 && AllDigits(s)
  }

  /** The mathematical value of an integer literal of any length. */
  function ParseInt(s: string): (r: Option<int>)
    ensures r.Some? <==> IsIntegerLiteral(s)
    ensures r.Some? && |s| > 0 && s[0] == '-' ==> r.value <= 0
    ensures r.Some? && |s| > 0 && s[0] != '-' ==> r.value >= 0
  {
    if |s| > 0 && (s[0] == '+' || s[0] == '-') then
      if |s| > 1 && AllDigits(s[1..]) then
        Some(if s[0] == '-' then -(DigitsValue(s[1..]) as int) else DigitsValue(s[1..]))
      else None
    else if |s| > 0 && AllDigits(s) then Some(DigitsValue(s))
    else None
  }

  /** Swift's `Int32(text)`: `nil` for malformed text and for values that do
      not fit in 32 bits. */
  function ParseInt32(s: string): (r: Option<int>)
    ensures r.Some? ==> InInt32(r.value)
    ensures r.Some? <==> IsIntegerLiteral(s) && InInt32(ParseInt(s).value)
    ensures r.Some? ==> r.value == ParseInt(s).value
  {
    match ParseInt(s)
    case Some(v) => if InInt32(v) then Some(v) else None
    case None => None
  }

  /** `Int32(text) ?? 0`: text that does not parse is stored as zero. */
  function Int32OrZero(s: string): (r: int)
    ensures InInt32(r)
    ensures !IsIntegerLiteral(s) ==> r == 0
    ensures IsIntegerLiteral(s) && InInt32(ParseInt(s).value) ==> r == ParseInt(s).value
    ensures IsIntegerLiteral(s) && !InInt32(ParseInt(s).value) ==> r == 0
  {
    ParseInt32(s).GetOr(0)
  }

  /** `String(format: "%02d", n)`: non-negative values below ten get a
      leading zero; every other value is already at least two wide. */
  function PadTwo(n: int): (r: string)
    ensures |r| >= 2
    ensures 0 <= n < 100 ==> |r| == 2 && AllDigits(r)
    ensures 10 <= n < 100 ==> r[0] != '0'
  {
    if 0 <= n < 10 then "0" + IntToDecimal(n)
    else
      DecimalWidth(n);
      IntToDecimal(n)
  }

  /** Swift's `%` on integers truncates toward zero, so the remainder has
      the sign of the dividend (Dafny's `%` is Euclidean). */
  function SwiftRem(a: int, b: int): (r: int)
    requires b != 0
    ensures a >= 0 ==> 0 <= r < Abs(b)
    ensures a < 0 ==> -(Abs(b) as int) < r <= 0
    ensures a >= 0 && b > 0 ==> r == a % b
    ensures (a - r) % b == 0
  {
    var q := Abs(a) / Abs(b);
    var m := Abs(a) % Abs(b);
    assert Abs(a) == Abs(b) * q + m;
    var r := if a < 0 then -m else m;
    assert a - r == b * (if (a < 0) == (b < 0) then q else -q);
    MultipleRem(b, if (a < 0) == (b < 0) then q else -q);
    r
  }

  /** A multiple of `b` leaves no remainder. */
  lemma MultipleRem(b: int, k: int)
    requires b != 0
    ensures (b * k) % b == 0
  {
    var q := (b * k) / b;
    var r := (b * k) % b;
    assert b * k == b * q + r;
    assert r == b * (k - q);
    if k != q {
      // |b * (k - q)| >= |b|, more than any Euclidean remainder
      assert Abs(b * (k - q)) == Abs(b) * Abs(k - q);
    }
  }

  function Abs(n: int): nat {
    if n < 0 then -n else n
  }

  // ---------------------------------------------------------------------
  // Round trips between the renderings and the parser

  /** Reading back the digits of `n` gives `n`. */
  lemma {:induction false} DigitsRoundTrip(n: nat)
    ensures DigitsValue(NatToDecimal(n)) == n
  {
    if n >= 10 {
      var prefix := NatToDecimal(n / 10);
      var s := prefix + [DigitChar(n % 10)];
      assert s[..|s| - 1] == prefix;
      DigitsRoundTrip(n / 10);
    }
  }

  /** `String(n)` parses back to `n`, for every integer. */
  lemma DecimalRoundTrip(n: int)
    ensures ParseInt(IntToDecimal(n)) == Some(n)
  {
    if n < 0 {
      var s := IntToDecimal(n);
      assert s[1..] == NatToDecimal(-n);
      DigitsRoundTrip(-n);
    } else {
      DigitsRoundTrip(n);
    }
  }

  /** `Int32(String(n)) == n` for every 32-bit `n`: the card form's limit
      text survives a prefill-then-save cycle. */
  lemma Int32RoundTrip(n: int)
    requires InInt32(n)
    ensures ParseInt32(IntToDecimal(n)) == Some(n)
    ensures Int32OrZero(IntToDecimal(n)) == n
  {
    DecimalRoundTrip(n);
  }

  /** Values of two or more digits render at least two characters wide. */
  lemma DecimalWidth(n: int)
    requires n < 0 || n >= 10
    ensures |IntToDecimal(n)| >= 2
    ensures n < 100 && n >= 10 ==> |IntToDecimal(n)| == 2
  {
    if n >= 10 {
      assert NatToDecimal(n) == NatToDecimal(n / 10) + [DigitChar(n % 10)];
    }
  }

  /** `%02d` of a value in 0..99 reads back as that value. */
  lemma PadTwoRoundTrip(n: int)
    requires 0 <= n < 100
    ensures ParseInt(PadTwo(n)) == Some(n)
  {
    if n < 10 {
      var s := PadTwo(n);
      assert s == ['0', DigitChar(n)];
      assert s[..1] == ['0'];
      assert s[..1][..0] == [];
      assert DigitsValue(s[..1]) == 0;
    } else {
      DecimalRoundTrip(n);
    }
  }

  // ---------------------------------------------------------------------
  // The value of any literal, not only of canonical ones

  /** A digit run that starts with a non-zero digit is non-zero. */
  lemma {:induction false} DigitsPositive(d: string)
    requires |d| > 0 && AllDigits(d) && d[0] != '0'
    ensures DigitsValue(d) > 0
    decreases |d|
  {
    if |d| > 1 {
      DigitsPositive(d[..|d| - 1]);
    }
  }

  /** Digits without leading zeros are exactly `String` of their value. */
  lemma {:induction false} CanonicalDigits(d: string)
    requires |d| > 0 && AllDigits(d) && (d[0] != '0' || |d| == 1)
    ensures NatToDecimal(DigitsValue(d)) == d
    decreases |d|
  {
    var p := d[..|d| - 1];
    var v := DigitsValue(d);
    if |d| == 1 {
      assert DigitChar(DigitValue(d[0])) == d[0];
    } else {
      DigitsPositive(p);
      CanonicalDigits(p);
      assert v / 10 == DigitsValue(p) && v % 10 == DigitValue(d[|d| - 1]);
      assert DigitChar(DigitValue(d[|d| - 1])) == d[|d| - 1];
      assert d == p + [d[|d| - 1]];
    }
  }

  /** A leading zero does not change a digit run's value. */
  lemma {:induction false} LeadingZeroDigits(d: string)
    requires AllDigits(d)
    ensures AllDigits("0" + d) && DigitsValue("0" + d) == DigitsValue(d)
    decreases |d|
  {
    var z := "0" + d;
    if |d| > 0 {
      assert z[..|z| - 1] == "0" + d[..|d| - 1];
      LeadingZeroDigits(d[..|d| - 1]);
    } else {
      assert z[..0] == [];
    }
  }

  /** `Int32(text)`'s literal value: a canonical digit run reads as the
      number it spells, a leading zero or `+` changes nothing, and `-`
      negates. */
  lemma ParseIntValue(d: string)
    requires |d| > 0 && AllDigits(d)
    ensures (d[0] != '0' || |d| == 1) ==> IntToDecimal(ParseInt(d).value) == d
    ensures ParseInt("0" + d) == ParseInt(d)
    ensures ParseInt("+" + d) == ParseInt(d)
    ensures ParseInt("-" + d) == Some(-ParseInt(d).value)
  {
    if d[0] != '0' || |d| == 1 {
      CanonicalDigits(d);
    }
    LeadingZeroDigits(d);
    assert ("+" + d)[1..] == d;
    assert ("-" + d)[1..] == d;
  }
}

=== FILE: persistence.dfy ===
/**
  An in-memory stand-in for the Core Data store: three collections of
  records with distinct identities, an identity counter, the
  timestamp-descending fetches, and the create/update/delete primitives the
  views use. A save either applies all of a view's pending changes or, in
  the app, fails (some views print the error); the failure path is not
  modelled.
*/
module Persistence {
  import opened Wrappers
  import opened Records
  import opened Listing
  import opened NumericText

  datatype Store = Store(
    cards: seq<Card>,
    transactions: seq<CardTransaction>,
    categories: seq<Category>,
    nextId: Id)

  /** No two records in `s` share a key. */
  ghost predicate UniqueBy<T>(s: seq<T>, key: T -> Id) {
    forall i, j :: 0 <= i < j < |s| ==> key(s[i]) != key(s[j])
  }

  function CardId(c: Card): Id { c.id }
  function TransactionId(t: CardTransaction): Id { t.id }
  function CategoryId(c: Category): Id { c.id }

  /** Identities are unique per entity and below the counter, and stored
      limits fit the `Int32` attribute. */
  ghost predicate Valid(s: Store) {
    && UniqueBy(s.cards, CardId)
    && UniqueBy(s.transactions, TransactionId)
    && UniqueBy(s.categories, CategoryId)
    && (forall c :: c in s.cards ==> c.id < s.nextId && InInt32(c.limit))
    && (forall t :: t in s.transactions ==> t.id < s.nextId)
    && (forall c :: c in s.categories ==> c.id < s.nextId)
  }

  const EmptyStore: Store := Store([], [], [], 0)

  /** The identities of the records in `s`. */
  function IdsOf<T(==)>(s: seq<T>, key: T -> Id): set<Id> {
    set x | x in s :: key(x)
  }

  function CardIds(s: Store): set<Id> {
    IdsOf(s.cards, CardId)
  }

  function CategoryIds(s: Store): set<Id> {
    IdsOf(s.categories, CategoryId)
  }

  function TransactionIds(s: Store): set<Id> {
    IdsOf(s.transactions, TransactionId)
  }

  // ---------------------------------------------------------------------
  // Fetches

  /** All cards, newest first. */
  function CardListing(s: Store): (r: seq<Card>)
    ensures SortedDesc(r, CardTime)
    ensures forall c :: c in r <==> c in s.cards
    ensures |r| == |s.cards|
  {
    var r := SortDesc(s.cards, CardTime);
    assert forall c :: c in r <==> c in multiset(s.cards);
    assert |r| == |multiset(r)| == |multiset(s.cards)|;
    r
  }

  /** All categories, newest first. */
  function CategoryListing(s: Store): (r: seq<Category>)
    ensures SortedDesc(r, CategoryTime)
    ensures forall c :: c in r <==> c in s.categories
    ensures |r| == |s.categories|
  {
    var r := SortDesc(s.categories, CategoryTime);
    assert forall c :: c in r <==> c in multiset(s.categories);
    assert |r| == |multiset(r)| == |multiset(s.categories)|;
    r
  }

  /** The owning-card predicate of the per-card transaction fetch. */
  function OwnedBy(card: Id): CardTransaction -> bool {
    (t: CardTransaction) => t.card == Some(card)
  }

  /** The transactions whose card is `card`, newest first. */
  function TransactionsOf(s: Store, card: Id): (r: seq<CardTransaction>)
    ensures SortedDesc(r, TransactionTime)
    ensures forall t :: t in r <==> t in s.transactions && t.card == Some(card)
    ensures multiset(r) == multiset(Filter(s.transactions, OwnedBy(card)))
  {
    var owned := Filter(s.transactions, OwnedBy(card));
    var r := SortDesc(owned, TransactionTime);
    assert forall t :: t in r <==> t in multiset(owned);
    r
  }

  // ---------------------------------------------------------------------
  // Mutations

  /** Removing records keeps the remaining identities unique. */
  lemma {:induction false} FilterKeepsUnique<T>(s: seq<T>, p: T -> bool, key: T -> Id)
    requires UniqueBy(s, key)
    ensures UniqueBy(Filter(s, p), key)
    decreases |s|
  {
    if |s| > 0 {
      var rest := Filter(s[1..], p);
      FilterKeepsUnique(s[1..], p, key);
      forall k | 0 <= k < |rest|
        ensures key(s[0]) != key(rest[k])
      {
        var i :| 0 <= i < |s[1..]| && s[1..][i] == rest[k];
        assert s[i + 1] == rest[k];
      }
    }
  }

  /** Inserts a card under the next free identity. */
  function InsertCard(s: Store, c: Card): (r: Store)
    requires Valid(s) && c.id == s.nextId && InInt32(c.limit)
    ensures Valid(r)
    ensures c.id !in CardIds(s) && CardIds(r) == CardIds(s) + {c.id}
    ensures forall d :: d in r.cards <==> d in s.cards || d == c
    ensures r.transactions == s.transactions && r.categories == s.categories
  {
    var r := s.(cards := s.cards + [c], nextId := s.nextId + 1);
    assert forall d :: d in r.cards <==> d in s.cards || d == c;
    r
  }

  /** `cards` with every card carrying `c`'s identity overwritten by `c`. */
  function Overwrite(cards: seq<Card>, c: Card): (r: seq<Card>)
    ensures |r| == |cards|
    ensures forall i :: 0 <= i < |r| ==> r[i].id == cards[i].id
    ensures forall i :: 0 <= i < |r| ==> r[i] == c || r[i] == cards[i]
  {
    seq(|cards|, i requires 0 <= i < |cards| => if cards[i].id == c.id then c else cards[i])
  }

  lemma OverwriteContents(cards: seq<Card>, c: Card)
    requires exists d :: d in cards && d.id == c.id
    ensures c in Overwrite(cards, c)
    ensures forall d :: d in cards && d.id != c.id ==> d in Overwrite(cards, c)
    ensures forall d :: d in Overwrite(cards, c) && d != c ==> d in cards && d.id != c.id
    ensures IdsOf(Overwrite(cards, c), CardId) == IdsOf(cards, CardId)
  {
    var r := Overwrite(cards, c);
    var d :| d in cards && d.id == c.id;
    var i :| 0 <= i < |cards| && cards[i] == d;
    assert r[i] == c;
    forall e | e in cards && e.id != c.id
      ensures e in r
    {
      var k :| 0 <= k < |cards| && cards[k] == e;
      assert r[k] == e;
    }
    forall x | x in IdsOf(cards, CardId)
      ensures x in IdsOf(r, CardId)
    {
      var e :| e in cards && e.id == x;
      var k :| 0 <= k < |cards| && cards[k] == e;
      assert r[k].id == x;
    }
  }

  /** Writes `c` over the stored card with the same identity, in place. */
  function ReplaceCard(s: Store, c: Card): (r: Store)
    requires Valid(s) && c.id in CardIds(s) && InInt32(c.limit)
    ensures Valid(r)
    ensures CardIds(r) == CardIds(s) && r.nextId == s.nextId
    ensures c in r.cards
    ensures forall d :: d in r.cards && d != c ==> d in s.cards && d.id != c.id
    ensures forall d :: d in s.cards && d.id != c.id ==> d in r.cards
    ensures r.transactions == s.transactions && r.categories == s.categories
  {
    OverwriteContents(s.cards, c);
    s.(cards := Overwrite(s.cards, c))
  }

  /** Deletes the card `id`; its transactions stay, still naming it. */
  function RemoveCard(s: Store, id: Id): (r: Store)
    requires Valid(s)
    ensures Valid(r)
    ensures CardIds(r) == CardIds(s) - {id}
    ensures forall c :: c in r.cards <==> c in s.cards && c.id != id
    ensures r.transactions == s.transactions && r.categories == s.categories
    ensures r.nextId == s.nextId
  {
    var p := (c: Card) => c.id != id;
    FilterKeepsUnique(s.cards, p, CardId);
    s.(cards := Filter(s.cards, p))
  }

  /** Inserts a transaction under the next free identity. */
  function InsertTransaction(s: Store, t: CardTransaction): (r: Store)
    requires Valid(s) && t.id == s.nextId
    ensures Valid(r)
    ensures t.id !in TransactionIds(s) && TransactionIds(r) == TransactionIds(s) + {t.id}
    ensures forall u :: u in r.transactions <==> u in s.transactions || u == t
    ensures r.cards == s.cards && r.categories == s.categories
  {
    var r := s.(transactions := s.transactions + [t], nextId := s.nextId + 1);
    assert forall u :: u in r.transactions <==> u in s.transactions || u == t;
    r
  }

  /** Deletes the transaction `id`. */
  function RemoveTransaction(s: Store, id: Id): (r: Store)
    requires Valid(s)
    ensures Valid(r)
    ensures TransactionIds(r) == TransactionIds(s) - {id}
    ensures forall t :: t in r.transactions <==> t in s.transactions && t.id != id
    ensures r.cards == s.cards && r.categories == s.categories
  {
    var p := (t: CardTransaction) => t.id != id;
    FilterKeepsUnique(s.transactions, p, TransactionId);
    s.(transactions := Filter(s.transactions, p))
  }

  /** Inserts a category under the next free identity. */
  function InsertCategory(s: Store, c: Category): (r: Store)
    requires Valid(s) && c.id == s.nextId
    ensures Valid(r)
    ensures c.id !in CategoryIds(s) && CategoryIds(r) == CategoryIds(s) + {c.id}
    ensures forall d :: d in r.categories <==> d in s.categories || d == c
    ensures r.cards == s.cards && r.transactions == s.transactions
  {
    var r := s.(categories := s.categories + [c], nextId := s.nextId + 1);
    assert forall d :: d in r.categories <==> d in s.categories || d == c;
    r
  }

  /** Deletes every category whose identity is in `ids`. References held in
      transactions' category sets are left as they are. */
  function RemoveCategories(s: Store, ids: set<Id>): (r: Store)
    requires Valid(s)
    ensures Valid(r)
    ensures CategoryIds(r) == CategoryIds(s) - ids
    ensures forall c :: c in r.categories <==> c in s.categories && c.id !in ids
    ensures r.cards == s.cards && r.transactions == s.transactions
  {
    var p := (c: Category) => c.id !in ids;
    FilterKeepsUnique(s.categories, p, CategoryId);
    s.(categories := Filter(s.categories, p))
  }
}

=== FILE: records.dfy ===
/**
  The three persisted entities. Core Data object identity (`hash`) is an
  abstract `Id`; `Date()` values are abstract `Time` ticks; colours are
  opaque values (their archive encoding is outside the model).
*/
module Records {
  import opened Wrappers

  type Id = nat
  type Time = int
  type Blob = seq<bv8>

  /** A display colour; `SystemBlue` and `SystemRed` are SwiftUI's
      `Color.blue` and `Color.red`, the forms' defaults. */
  datatype Color = SystemBlue | SystemRed | Rgba(red: real, green: real, blue: real, alpha: real)

  /** A credit card. `color` is `None` when the stored blob is missing or
      does not decode. `limit` is an `Int32`, `expMonth`/`expYear` are
      `Int16`s in the store. */
  datatype Card = Card(
    id: Id,
    name: string,
    number: string,
    cardType: string,
    limit: int,
    expMonth: int,
    expYear: int,
    timestamp: Time,
    color: Option<Color>)

  /** A purchase. `card` is the owning card (a dangling id once that card
      is deleted); `categories` is `None` when the relationship was never
      set. */
  datatype CardTransaction = CardTransaction(
    id: Id,
    name: string,
    amount: real,
    timestamp: Time,
    photo: Option<Blob>,
    card: Option<Id>,
    categories: Option<set<Id>>)

  /** A user-defined tag for transactions. */
  datatype Category = Category(id: Id, name: string, color: Color, timestamp: Time)

  /** How a form is left: its save button or its cancel button. */
  datatype FormAction = Save | Cancel

  // Sort keys and identity accessors, as first-class functions for Listing.

  function CardTime(c: Card): Time { c.timestamp }
  function TransactionTime(t: CardTransaction): Time { t.timestamp }
  function CategoryTime(c: Category): Time { c.timestamp }
}

=== FILE: scenarios.dfy ===
/**
  Walks through the app's main flows on an empty store, composing the
  screens' operations: a card is added, a category created in the picker,
  a transaction saved on the card, the list filtered, and the card deleted.
*/
module Scenarios {
  import opened Wrappers
  import opened Records
  import opened Listing
  import opened Persistence
  import opened CardForm
  import opened CategoriesScreen
  import opened TransactionForm
  import opened TransactionsList
  import opened MainView
  import opened NumericText

  /** The card saved from a filled-in form on an empty store is the only
      listed card, with the entered fields and the limit read from its text. */
  lemma AddFirstCard(now: Time)
    ensures var (s, card) := SaveCard(EmptyStore, None, CardBuffer("Visa Gold", "4111", "Visa", "5000", 12, 2030, SystemBlue), now);
      && CardListing(s) == [card]
      && card.name == "Visa Gold" && card.number == "4111" && card.limit == 5000
      && card.expMonth == 12 && card.expYear == 2030
  {
    var b := CardBuffer("Visa Gold", "4111", "Visa", "5000", 12, 2030, SystemBlue);
    var (s, card) := SaveCard(EmptyStore, None, b, now);
    assert s.cards == [card];
    assert CardListing(s) == [card] by {
      assert multiset(CardListing(s)) == multiset{card};
      assert |CardListing(s)| == 1;
    }
    assert ParseInt32("5000") == Some(5000) by {
      assert "5000" == NatToDecimal(5000) by {
        assert NatToDecimal(5000) == NatToDecimal(500) + [DigitChar(0)];
        assert NatToDecimal(500) == NatToDecimal(50) + [DigitChar(0)];
        assert NatToDecimal(50) == NatToDecimal(5) + [DigitChar(0)];
      }
      Int32RoundTrip(5000);
    }
  }

  /** A category created on the card's store and a transaction saved with
      it selected: the card lists that one transaction, filtering by the
      category keeps it, and filtering by any other category empties the
      list. */
  lemma CategorisedTransaction(s: Store, card: Card, now: Time, parseAmount: string -> Option<real>, other: Id)
    requires Valid(s) && s.cards == [card] && s.transactions == [] && s.categories == []
    requires parseAmount("42.50") == Some(42.5)
    ensures var (s1, _) := HandleCreate(s, Screen("Groceries", SystemRed, {}), now);
      var groceries := s1.categories[0];
      var (s2, t) := SaveTransaction(s1, card.id, TransactionBuffer("Store", "42.50", now, None, {groceries.id}), parseAmount);
      && |s1.categories| == 1 && groceries.name == "Groceries" && groceries.color == SystemRed
      && TransactionsOf(s2, card.id) == [t]
      && t.name == "Store" && t.amount == 42.5
      && Filtered(TransactionsOf(s2, card.id), {groceries.id}) == [t]
      && (other != groceries.id ==> Filtered(TransactionsOf(s2, card.id), {other}) == [])
  {
    var (s1, _) := HandleCreate(s, Screen("Groceries", SystemRed, {}), now);
    assert |s1.categories| == 1;
    var groceries := s1.categories[0];
    var b := TransactionBuffer("Store", "42.50", now, None, {groceries.id});
    var (s2, t) := SaveTransaction(s1, card.id, b, parseAmount);
    assert s2.transactions == [t];
    assert Filter(s2.transactions, OwnedBy(card.id)) == [t];
    assert TransactionsOf(s2, card.id) == [t] by {
      assert multiset(TransactionsOf(s2, card.id)) == multiset{t};
      assert |TransactionsOf(s2, card.id)| == 1;
    }
    assert MatchesSelection(t, {groceries.id});
    assert Filter([t], Matcher({groceries.id})) == [t];
    if other != groceries.id {
      assert !MatchesSelection(t, {other});
      assert Filter([t], Matcher({other})) == [];
    }
  }

  /** Deleting a card with transactions: the card leaves the listing and can
      no longer be shown, so its transactions are unreachable from the
      carousel although they stay in the store. */
  lemma DeleteCardOrphansTransactions(s: Store, card: Card)
    requires Valid(s) && card in s.cards
    requires forall t :: t in s.transactions ==> t.card == Some(card.id)
    ensures var s' := DeleteCard(s, card);
      && card !in CardListing(s')
      && ShownCard(s', card.id) == None
      && s'.transactions == s.transactions
      && forall c :: c in s'.cards ==> TransactionsOf(s', c.id) == []
  {
    var s' := DeleteCard(s, card);
    forall c | c in s'.cards
      ensures TransactionsOf(s', c.id) == []
    {
      assert c.id != card.id;
    }
  }
}

=== FILE: selection.dfy ===
/**
  Editing a set of selected categories by tapping rows. The category picker
  and the filter sheet share the same tap rule: a tapped category leaves the
  selection if it was in it and joins it otherwise.
*/
module Selection {
  import opened Records

  /** One tap on the row of category `c`. */
  function Toggle(selection: set<Id>, c: Id): (r: set<Id>)
    ensures c in r <==> c !in selection
    ensures forall d :: d != c ==> (d in r <==> d in selection)
  {
    if c in selection then selection - {c} else selection + {c}
  }

  /** Tapping the same row twice restores the selection. */
  lemma ToggleTwice(selection: set<Id>, c: Id)
    ensures Toggle(Toggle(selection, c), c) == selection
  {
  }

  /** Taps on several rows, in order. */
  function TapAll(selection: set<Id>, taps: seq<Id>): set<Id>
    decreases |taps|
  {
    if |taps| == 0 then selection else TapAll(Toggle(selection, taps[0]), taps[1..])
  }

  /** How many of the taps were on category `c`. */
  function TapsOn(taps: seq<Id>, c: Id): nat
    decreases |taps|
  {
    if |taps| == 0 then 0 else (if taps[0] == c then 1 else 0) + TapsOn(taps[1..], c)
  }

  /** After any series of taps, a category is selected exactly when it was
      selected before and was tapped an even number of times, or was not
      selected and was tapped an odd number of times. */
  lemma {:induction false} TapAllParity(selection: set<Id>, taps: seq<Id>)
    ensures forall c :: c in TapAll(selection, taps) <==> ((c in selection) != (TapsOn(taps, c) % 2 == 1))
    decreases |taps|
  {
    if |taps| > 0 {
      TapAllParity(Toggle(selection, taps[0]), taps[1..]);
    }
  }

  /** How the filter sheet is left: with its save button, or dismissed. */
  datatype SheetExit = SaveFilters | DismissSheet

  /** A filter-sheet session: the sheet opens on a copy of the list's active
      selection, the taps edit the copy, and the list adopts the copy only
      when the sheet is saved. */
  function RunFilterSheet(active: set<Id>, taps: seq<Id>, exit: SheetExit): (r: set<Id>)
    ensures exit == DismissSheet ==> r == active
    ensures exit == SaveFilters ==>
      forall c :: c in r <==> ((c in active) != (TapsOn(taps, c) % 2 == 1))
  {
    var draft := TapAll(active, taps);
    TapAllParity(active, taps);
    if exit == SaveFilters then draft else active
  }
}

=== FILE: transaction_form.dfy ===
/**
  The add-transaction form: its initial category preselection, the order
  in which it lists the selected categories, and what save and cancel do.
*/
module TransactionForm {
  import opened Wrappers
  import opened Records
  import opened Listing
  import opened Persistence
  import opened CategoriesScreen

  /** The form's editable state. `amountText` is the text field's content;
      `date` the date picker's value. */
  datatype TransactionBuffer = TransactionBuffer(
    name: string,
    amountText: string,
    date: Time,
    photo: Option<Blob>,
    selection: set<Id>)

  /** The buffer a form opens with at time `now`: empty fields, the date
      `now`, no photo, and the newest category preselected if there is one. */
  function OpenTransactionForm(s: Store, now: Time): (b: TransactionBuffer)
    ensures b.name == "" && b.amountText == "" && b.date == now && b.photo.None?
    ensures b.selection == {} <==> |s.categories| == 0
    ensures b.selection != {} ==>
      exists c :: c in s.categories && b.selection == {c.id}
        && forall d :: d in s.categories ==> d.timestamp <= c.timestamp
  {
    var listing := CategoryListing(s);
    if |listing| == 0 then TransactionBuffer("", "", now, None, {})
    else
      var newest := listing[0];
      assert newest in s.categories;
      assert forall d :: d in s.categories ==> d.timestamp <= newest.timestamp by {
        forall d | d in s.categories ensures d.timestamp <= newest.timestamp {
          HeadIsLargest(listing, CategoryTime, d);
        }
      }
      TransactionBuffer("", "", now, None, {newest.id})
  }

  /** Whether a category's identity is in the selection. */
  function IsSelected(selection: set<Id>): Category -> bool {
    (c: Category) => c.id in selection
  }

  /** The selected categories as the form lists them: those of the store
      whose identity is selected, each once, newest first. */
  function SelectedForDisplay(s: Store, selection: set<Id>): (r: seq<Category>)
    ensures SortedDesc(r, CategoryTime)
    ensures forall c :: c in r <==> c in s.categories && c.id in selection
    ensures multiset(r) == multiset(Filter(s.categories, IsSelected(selection)))
  {
    var chosen := Filter(s.categories, IsSelected(selection));
    var r := SortDesc(chosen, CategoryTime);
    assert forall c :: c in r <==> c in multiset(chosen);
    r
  }

  /** The save button: one new transaction on the form's card carrying the
      buffer's name, date, photo and category selection; amount text that
      does not parse (per `parseAmount`, Swift's `Float(text)`) becomes 0. */
  function SaveTransaction(s: Store, card: Id, b: TransactionBuffer, parseAmount: string -> Option<real>)
    : (r: (Store, CardTransaction))
    requires Valid(s)
    ensures Valid(r.0)
    ensures r.1.id !in TransactionIds(s) && TransactionIds(r.0) == TransactionIds(s) + {r.1.id}
    ensures forall t :: t in r.0.transactions <==> t in s.transactions || t == r.1
    ensures r.1.card == Some(card) && r.1.categories == Some(b.selection)
    ensures r.1.name == b.name && r.1.timestamp == b.date && r.1.photo == b.photo
    ensures parseAmount(b.amountText).None? ==> r.1.amount == 0.0
    ensures parseAmount(b.amountText).Some? ==> r.1.amount == parseAmount(b.amountText).value
    ensures r.0.cards == s.cards && r.0.categories == s.categories
  {
    var t := CardTransaction(s.nextId, b.name, parseAmount(b.amountText).GetOr(0.0), b.date,
                             b.photo, Some(card), Some(b.selection));
    (InsertTransaction(s, t), t)
  }

  /** Leaving the form: save as above, or cancel, which changes nothing. */
  function SubmitTransactionForm(s: Store, card: Id, b: TransactionBuffer, action: FormAction,
                                 parseAmount: string -> Option<real>): (r: Store)
    requires Valid(s)
    ensures Valid(r)
    ensures action == Cancel ==> r == s
    ensures action == Save ==> |TransactionIds(r)| == |TransactionIds(s)| + 1
    ensures action == Save ==>
      exists t: CardTransaction :: (t.id !in TransactionIds(s) && t.card == Some(card)
        && t.categories == Some(b.selection) && t.name == b.name && t.timestamp == b.date
        && t.photo == b.photo && t.amount == parseAmount(b.amountText).GetOr(0.0)
        && (forall u :: u in r.transactions <==> u in s.transactions || u == t))
    ensures r.cards == s.cards && r.categories == s.categories
  {
    if action == Cancel then s
    else
      var (s', t) := SaveTransaction(s, card, b, parseAmount);
      assert t.id !in TransactionIds(s) && t.card == Some(card) && t.categories == Some(b.selection);
      s'
  }

  /** A saved transaction appears in its card's list. */
  lemma SavedTransactionListed(s: Store, card: Id, b: TransactionBuffer, parseAmount: string -> Option<real>)
    requires Valid(s)
    ensures var (s', t) := SaveTransaction(s, card, b, parseAmount);
      t in TransactionsOf(s', card)
  {
  }

  /** A category just created in the picker (with a clock that moves
      forward) is the one the next transaction form preselects. */
  lemma CreatedCategoryPreselected(s: Store, sc: Screen, now: Time, later: Time)
    requires Valid(s)
    requires forall d :: d in s.categories ==> d.timestamp < now
    ensures var s' := HandleCreate(s, sc, now).0;
      exists c :: c in s'.categories && c.name == sc.name && c.timestamp == now
        && OpenTransactionForm(s', later).selection == {c.id}
  {
    var s' := HandleCreate(s, sc, now).0;
    var c :| c !in s.categories && c.name == sc.name && c.timestamp == now
      && (forall d :: d in s'.categories <==> d in s.categories || d == c);
    var b := OpenTransactionForm(s', later);
    var x :| x in s'.categories && b.selection == {x.id}
      && forall d :: d in s'.categories ==> d.timestamp <= x.timestamp;
    assert c.timestamp <= x.timestamp;
    assert x == c;
  }
}

=== FILE: transactions_list.dfy ===
/**
  A card's transaction list: the per-card fetch (newest first), the
  category filter over it, and deleting a transaction from its row.
*/
module TransactionsList {
  import opened Wrappers
  import opened Records
  import opened Listing
  import opened Persistence

  /** A transaction matches a selection when one of its categories is
      selected; a transaction whose category set is unset matches nothing. */
  predicate MatchesSelection(t: CardTransaction, selection: set<Id>) {
    t.categories.Some? && exists c :: c in t.categories.value && c in selection
  }

  function Matcher(selection: set<Id>): CardTransaction -> bool {
    (t: CardTransaction) => MatchesSelection(t, selection)
  }

  /** Reference definition of the category filter: an empty selection
      shows everything, otherwise the matching transactions in order. */
  function Filtered(ts: seq<CardTransaction>, selection: set<Id>): seq<CardTransaction> {
    if selection == {} then ts else Filter(ts, Matcher(selection))
  }

  /** The per-transaction test, iterating the transaction's categories and
      raising a flag on the first selected one. */
  method ShouldKeep(t: CardTransaction, selection: set<Id>) returns (keep: bool)
    ensures keep <==> MatchesSelection(t, selection)
  {
    keep := false;
    if t.categories.Some? {
      var categories := t.categories.value;
      var remaining := categories;
      while remaining != {}
        invariant remaining <= categories
        invariant keep <==> exists c :: c in categories - remaining && c in selection
        decreases remaining
      {
        var c :| c in remaining;
        if c in selection {
          keep := true;
        }
        remaining := remaining - {c};
      }
      assert categories - remaining == categories;
    }
  }

  /** The list view's filter over the fetched transactions. */
  method FilterTransactions(fetched: seq<CardTransaction>, selection: set<Id>) returns (r: seq<CardTransaction>)
    ensures r == Filtered(fetched, selection)
  {
    if selection == {} {
      return fetched;
    }
    r := [];
    var i := 0;
    while i < |fetched|
      invariant 0 <= i <= |fetched|
      invariant r == Filter(fetched[..i], Matcher(selection))
    {
      var keep := ShouldKeep(fetched[i], selection);
      assert fetched[..i + 1] == fetched[..i] + [fetched[i]];
      FilterSnoc(fetched[..i], fetched[i], Matcher(selection));
      if keep {
        r := r + [fetched[i]];
      }
      i := i + 1;
    }
    assert fetched[..i] == fetched;
  }

  // ---------------------------------------------------------------------
  // Properties of the filter

  /** With nothing selected the fetched list is shown unchanged. */
  lemma FilterEmptySelection(ts: seq<CardTransaction>)
    ensures Filtered(ts, {}) == ts
  {
  }

  /** With a non-empty selection, a transaction is shown exactly when one of
      its categories is selected. */
  lemma FilterKeepsExactlyMatches(ts: seq<CardTransaction>, selection: set<Id>)
    requires selection != {}
    ensures forall t :: t in Filtered(ts, selection) <==>
      t in ts && t.categories.Some? && exists c :: c in t.categories.value && c in selection
  {
    var r := Filtered(ts, selection);
    forall t | t in r
      ensures t in ts && MatchesSelection(t, selection)
    {
      var i :| 0 <= i < |r| && r[i] == t;
    }
    forall t | t in ts && MatchesSelection(t, selection)
      ensures t in r
    {
      var i :| 0 <= i < |ts| && ts[i] == t;
      assert Matcher(selection)(ts[i]);
    }
  }

  /** Uncategorised transactions (unset or empty set) disappear as soon as
      anything is selected. */
  lemma FilterDropsUncategorised(ts: seq<CardTransaction>, selection: set<Id>, t: CardTransaction)
    requires selection != {}
    requires t.categories.None? || t.categories == Some({})
    ensures t !in Filtered(ts, selection)
  {
    FilterKeepsExactlyMatches(ts, selection);
  }

  /** The filter only leaves transactions out; the rest keep their order. */
  lemma FilterIsSubsequence(ts: seq<CardTransaction>, selection: set<Id>)
    ensures IsSubseq(Filtered(ts, selection), ts)
  {
    if selection == {} {
      SubseqRefl(ts);
    } else {
      FilterIsSubseq(ts, Matcher(selection));
    }
  }

  lemma {:induction false} SubseqRefl<T>(s: seq<T>)
    ensures IsSubseq(s, s)
    decreases |s|
  {
    if |s| > 0 {
      SubseqRefl(s[1..]);
    }
  }

  /** A newest-first list stays newest first after filtering. */
  lemma FilterKeepsNewestFirst(ts: seq<CardTransaction>, selection: set<Id>)
    requires SortedDesc(ts, TransactionTime)
    ensures SortedDesc(Filtered(ts, selection), TransactionTime)
  {
    if selection != {} {
      FilterKeepsSorted(ts, Matcher(selection), TransactionTime);
    }
  }

  /** Filtering a filtered list again with the same selection changes
      nothing. */
  lemma FilterIdempotent(ts: seq<CardTransaction>, selection: set<Id>)
    ensures Filtered(Filtered(ts, selection), selection) == Filtered(ts, selection)
  {
    if selection != {} {
      Listing.FilterIdempotent(ts, Matcher(selection));
    }
  }

  // ---------------------------------------------------------------------
  // The list as the view shows it

  /** The rows the list shows for `card` under the active selection. */
  function ShownTransactions(s: Store, card: Id, selection: set<Id>): (r: seq<CardTransaction>)
    ensures forall t :: t in r ==> t in s.transactions && t.card == Some(card)
    ensures SortedDesc(r, TransactionTime)
    ensures selection == {} ==> r == TransactionsOf(s, card)
    ensures selection != {} ==> forall t :: t in r <==>
      t in s.transactions && t.card == Some(card) && MatchesSelection(t, selection)
    ensures IsSubseq(r, TransactionsOf(s, card))
  {
    var fetched := TransactionsOf(s, card);
    FilterKeepsNewestFirst(fetched, selection);
    FilterIsSubsequence(fetched, selection);
    var r := Filtered(fetched, selection);
    assert selection != {} ==> forall t :: t in r <==> t in fetched && MatchesSelection(t, selection) by {
      if selection != {} {
        FilterKeepsExactlyMatches(fetched, selection);
      }
    }
    r
  }

  /** Deleting a transaction from its row: that transaction is gone from the
      store and from every card's list; nothing else changes. */
  function DeleteTransaction(s: Store, t: CardTransaction): (r: Store)
    requires Valid(s)
    ensures Valid(r)
    ensures forall card :: t !in TransactionsOf(r, card)
    ensures forall u :: u in r.transactions <==> u in s.transactions && u.id != t.id
    ensures t.id !in TransactionIds(r)
    ensures r.cards == s.cards && r.categories == s.categories
  {
    RemoveTransaction(s, t.id)
  }
}

=== FILE: wrappers.dfy ===
/** Optional values, standing in for Swift optionals (`T?`). */
module Wrappers {

  datatype Option<+T> = None | Some(value: T) {

    /** The wrapped value, or `default` when absent (Swift's `??`). */
    function GetOr(default: T): (r: T)
      ensures Some? ==> r == value
      ensures None? ==> r == default
    {
      match this
      case Some(v) => v
      case None => default
    }
  }
}
